=== FILE: README.md ===
# Rule-learning moderation bot: a Dafny model

This project models the core of a group-moderation bot for Telegram
(`main.py`). The core lets the group's constitution learn new rules:

- A whitelisted admin punishes a member by replying to their message with a `/hi` command of three or more lines: action, reason, optional duration. The whitelist holds the owner and one further fixed id, and lines after the fourth are ignored.
- Every such command records its reason in a per-reason counter.
- When a reason's count reaches exactly the trigger (3), a generative-text service is asked to draft a new constitution rule. It is asked for the number one more than the count of numbered rule lines. Its reply is not checked against that number, and the number need not be unused: with rules "1." and "3." it is 3.
- A non-empty draft waits under a fresh token until the owner approves it or rejects it. Approval appends it to the constitution on a new line. Rejection discards it.

Around that pipeline sit the small parsers and filters it depends on:

- reading the `/hi` command;
- `parse_duration` and the ten-minute mute default;
- the unit in which the announcement shows a mute;
- counting the numbered rules of the constitution;
- the blacklist substring check;
- the post-processing of the service's classification, word-extraction and drafting replies;
- the token carried by the approve and reject buttons.

Modules:

- `Text` (`text.dfy`): the parts of Python's string semantics the code uses. These are `strip`/`isspace`, `lower`, `splitlines`, `split()`, `in`, and the digits `\d` matches with their `int()` value.
- `Filters` (`filters.dfy`): the blacklist load and check, and the service-reply interpreters.
- `Durations` (`durations.dfy`): duration parsing, the mute duration, and the display unit.
- `Constitution` (`constitution.dfy`): numbered rule lines and the next rule number.
- `Admin` (`admin.dfy`): the `/hi` command and the punishment it selects.
- `RuleLearning` (`learning.dfy`): the class `RuleLearner`, which holds the three pieces of process state the handlers update in place:
  - the reason counters;
  - the constitution text;
  - the pending-proposal table (token to rule).

  Its methods are the `/hi` handler, the approve and reject handlers, and `RecordViolation`, the counting and staging step inside the `/hi` handler (`main.py:193-200`). Client methods show how call sequences behave.
- `Wrappers` (`wrappers.dfy`): `Option`.

Where the service would be called, its reply is an `Option<string>` parameter. `None` stands for "not configured or the call raised". The uuid of a new proposal is a token parameter that must not already be pending.

Two facts about the code shape the model:

- The blacklist file is named `blacklist.txt`, and the loader returns the whole text of any file whose name ends in ".txt" (`main.py:71-72`). The blacklist check therefore iterates over the text's characters. A message is flagged as soon as its lower-cased form shares one character with the file, for example its line break (see "## Findings"). The line-set load at `main.py:74`, which the check evidently means, is modelled as the corrected definition. Neither load lower-cases the entries.
- A drafted rule is refused only when it is empty after stripping (`main.py:198`). Any other draft, even one holding several statements, is staged as it is.

## Model

| member | source | states |
|---|---|---|
| RuleLearning.RuleLearner.RecordViolation | main.py:193-200 | The reason's count goes up by exactly 1, with absent counting as 0, and no other count changes. A draft is requested iff the new count equals the trigger, and the requested number is the constitution's next rule number. A proposal is staged iff a draft was requested and the stripped reply is non-empty. Only then is the fresh token added to the pending table with that rule, and no other entry changes. The constitution never changes, and no pending rule is ever empty. |
| RuleLearning.RuleLearner.Approve | main.py:234-249 | A committed rule is returned iff the token is pending. Committing appends "\n" + rule to the constitution, removes exactly that token, and raises the numbered-rule count by the rule's own count. An unknown or already resolved token leaves the constitution and the pending table unchanged. Reason counts never change. |
| RuleLearning.RuleLearner.constructor | main.py:84-87 | The learner starts with the stored reason counts and constitution, and with no pending proposal. |
| RuleLearning.RuleLearner.CountOf | main.py:193 | `REASON_COUNTS.get(reason, 0)`: the stored count of a reason, or 0 when it has none. |
| RuleLearning.RuleLearner.Reject | main.py:251-258 | Shows the pending rule, or the "proposal unavailable" text when the token is not pending. The token is removed, so an absent token changes nothing. The constitution and the reason counts never change. |
| RuleLearning.RuleLearner.ManualAdminAction | main.py:182-228 | The command is ignored, with nothing changed, iff the sender is not authorized or the text is not a `/hi` command. Otherwise the reason is recorded before the action is looked at, so an unknown action or a bad duration still counts. A draft is requested iff the new count is the trigger, for the constitution's next rule number. A proposal is staged iff a draft was requested and the stripped reply is non-empty; it carries the token, the command's reason and that draft, and it is the only change to the pending table. The punishment is the one `Punish` selects. |
| RuleLearning.RecordRepeatedly | main.py:196 | Recording one reason once per token in a loop raises its count by the number of tokens. A draft is requested exactly once if the run crosses the trigger, and otherwise never: the test is equality, so counts past the trigger never ask again. |
| RuleLearning.ApproveTwice | main.py:239-249 | A token is committed at most once. The second approval finds nothing, and the constitution grows by one rule at most. |
| RuleLearning.ApproveThenReject | main.py:248-258 | After an approval, rejecting the same token shows "proposal unavailable" and the token is no longer pending. |
| RuleLearning.ThirdRecordingDraftsRuleThree | main.py:193-200 | Counters start empty and the constitution has two numbered rules. The first two recordings of a reason ask for nothing. The third asks for rule number 3 and stages the stripped draft under its token. |
| RuleLearning.CallbackToken | main.py:237 | `split(":")[1]` is None exactly where Python raises, that is, when the data has no colon. A token read back never holds a colon. |
| RuleLearning.CallbackData | main.py:203-204 | The button data is the verb, one colon and the token, in that order. `CallbackRoundTrip` shows the token is read back from it. |
| RuleLearning.CallbackRoundTrip | main.py:203-204 | The token written into "<verb>:<token>" is read back intact when neither part holds a colon. |
| RuleLearning.ButtonsCarryToken | main.py:203-204 | The approve button ("approve_rule:") and the reject button ("reject_rule:") of a proposal both read back its token. |
| Constitution.IsNumberedRule | main.py:128 | A numbered rule line has at least two characters, opens with a digit and holds a full stop. `NumberedRuleMeaning` gives its exact meaning. |
| Constitution.NumberedRuleMeaning | main.py:128 | The greedy digit-run test agrees with `^\d+\.`: some non-empty run of digits at the start of the stripped line is followed by a full stop. |
| Constitution.CountNumbered | main.py:128 | The count of lines that, stripped, are numbered rule lines is at most the number of lines. `CountNumberedAppend` shows it is additive. |
| Constitution.RuleCount | main.py:128 | A constitution holds at most one numbered rule per line. `RuleCountAfterAppend` gives its change when a rule is committed. |
| Constitution.NextRuleNumber | main.py:128-129 | The requested number is at least 1 and at most one more than the number of lines. |
| Constitution.RuleCountAfterAppend | main.py:244 | Appending "\n" + rule to any constitution adds exactly the rule's numbered lines to its numbered-rule count. The new break neither merges two lines nor splits one, including after a trailing "\r". |
| Constitution.NextRuleNumberAfterCommit | main.py:244 | After a one-line numbered rule is committed, the next requested number is one higher. |
| Constitution.CountNumberedAppend | main.py:128 | The numbered-line count of two runs of lines is the sum of their counts. |
| Filters.ContainsBadWord | main.py:91-96 | The loop returns true iff some blacklist entry occurs in the lower-cased message (`Flagged`). An empty blacklist gives false. |
| Filters.OnlyLowerEntriesMatch | main.py:91-96 | Entries are not lower-cased but the message is, so a blacklist flags a message iff one of its entries without an upper-case ASCII letter occurs in the lower-cased message. |
| Filters.LoadBlacklist | main.py:64-72 | The blacklist as the program loads it: empty for a missing file, and otherwise exactly the one-character strings of the file's text. |
| Filters.BlacklistAsWrittenFlags | main.py:84-96 | As loaded, the blacklist flags a message iff some character of the lower-cased message occurs in the file's text. |
| Filters.BlacklistAsWrittenFlagsMultiLine | main.py:84-96 | As loaded, a file holding a line feed flags every message holding a line feed. |
| Filters.SpamBlacklistFlagsCat | main.py:71-74 | A file holding "spam" flags the message "a cat" as loaded, but not as a set of lines. |
| Filters.LoadLineSet | main.py:74 | The evidently intended load: the set holds exactly the non-empty stripped lines, each without surrounding whitespace. |
| Filters.LineSetFlagsWholeLines | main.py:74 | Loaded as a set of lines, the blacklist flags a message iff a whole non-blank stripped line of the file occurs in the lower-cased message. |
| Filters.Verdict | main.py:103-105 | The verdict is "violates" iff a reply came back and contains "نعم". Stripping and lower-casing the reply cannot change that answer. |
| Filters.OffensiveWord | main.py:118-121 | A word is returned iff a reply came back whose stripped, lower-cased form holds no whitespace and not the "لايوجد" marker. The word is that form, and an empty reply yields the empty word. |
| Filters.DraftRule | main.py:141 | There is a draft iff the service replied. The draft has no surrounding whitespace, is no longer than the reply, and keeps every non-space character of the reply. It is empty exactly when the reply is blank, which is what the staging test at `main.py:198` checks. |
| Durations.UnitSeconds | main.py:177-179 | The units are 60, 3600 and 86400 seconds, one for each of `m`, `h` and `d`, and no two letters share a length. |
| Durations.ParseDuration | main.py:173-180 | A duration is returned only for text made of two or more characters: digits followed by one `m`/`h`/`d` in either case. Such text holds no whitespace, and the duration is a whole number of minutes. |
| Durations.ParseDurationAccepts | main.py:173-180 | Every non-empty run of digits followed by a unit letter, in either case, parses to its value times 60, 3600 or 86400 seconds. |
| Durations.ParseDurationRoundTrip | main.py:173-180 | Writing an amount and a unit letter and parsing it back gives the amount in that unit. |
| Durations.MuteSeconds | main.py:214-219 | A missing or empty duration line means ten minutes. Otherwise the line is parsed, and the mute is aborted iff the line does not parse or parses to zero. Any mute lasts a positive number of whole minutes. |
| Durations.ZeroAmountAbortsMute | main.py:218-219 | An amount of zeros parses to a zero duration, which aborts the mute. |
| Durations.Display | main.py:224 | The announcement shows days iff there is at least one day, and hours iff there is at least an hour but less than a day; otherwise it shows minutes. The amount shown is the duration rounded down to that unit. |
| Admin.ParseCommand | main.py:187-191 | A text is a command iff it has at least three lines and its first line, stripped and lower-cased, is `/hi`. The action and the reason are lines 1 and 2 stripped; the duration line is line 3 stripped, present iff there are more than three lines. Every field is a single stripped line. |
| Admin.ParseRender | main.py:187-214 | Any command whose fields are stripped single lines, written one field per line, reads back as the same command. |
| Admin.ParseWritten | main.py:187-191 | Under any single first line that reads `/hi` once stripped and lower-cased, the written fields read back as the same command. |
| Admin.ShoutedCommandAccepted | main.py:188 | The first line "  /HI " is accepted, so case and surrounding whitespace do not matter. |
| Admin.Punish | main.py:217-228 | The ban word gives a ban, and nothing else does. For the mute word, there is no punishment iff `MuteSeconds` of the duration line aborts the mute; otherwise it is a mute for exactly that many seconds, shown by `Display`. An unknown action gives nothing. |
| Admin.DefaultMute | main.py:218 | A mute without a duration line lasts ten minutes and is shown as 10 minutes. |
| Admin.MuteForWrittenDuration | main.py:217-224 | A mute whose duration line is a non-zero amount followed by a unit letter lasts that amount in that unit. |
| Text.Contains | main.py:94 | `w in text` holds iff w occurs at some position of text. |
| Text.Lower | main.py:92 | `lower()` keeps the text's length. `LowerMeaning` states the character-by-character effect. |
| Text.LowerMeaning | main.py:92 | The lower-cased text holds no upper-case ASCII letter. Every other character is unchanged, and each upper-case letter becomes its lower-case form. |
| Text.Strip | main.py:74 | `strip()` returns a slice of the text, without surrounding whitespace, that starts at the text's first non-space character. |
| Text.StripKeeps | main.py:74 | `strip()` removes only whitespace: every non-space character of the text lies within the stripped slice. |
| Text.SplitLines | main.py:187 | No line returned by `splitlines()` holds a line break, and there are no more lines than characters. |
| Text.SplitTerminated | main.py:187 | Splitting newline-terminated lines that hold no break gives back the lines. |
| Text.Words | main.py:119 | Every word `split()` returns is non-empty and holds no whitespace. `WordsOfBlank` and `WordsOfStripped` say how many words there are. |
| Text.WordsOfStripped | main.py:119 | For stripped text, `split()` yields at most one word iff the text holds no whitespace. |
| Text.ContainsLowered | main.py:103-105 | A piece with no ASCII letter occurs in the lower-cased text iff it occurs in the text. |
| Text.ContainsStripped | main.py:103-105 | A non-empty piece without whitespace occurs in the stripped text iff it occurs in the text. |
| Text.LoweredLacksUpper | main.py:92-94 | No piece holding an upper-case ASCII letter occurs in lower-cased text. |
| Text.Value | main.py:176 | `int()` of a run of digits is 0 iff every digit is a zero. `DecimalRoundTrip` shows it inverts `Decimal`. |
| Text.DecimalRoundTrip | main.py:176 | `int()` of the decimal numeral of n is n. |

## Left out

- The generative-text calls and their prompt texts (`main.py:52-57`, `main.py:98-144`) are network calls into a foreign library. Only the post-processing of the reply text is modelled, and the reply is a parameter.
- The Telegram plumbing is I/O and user interface. This covers the start and settings handlers, keyboards, message sending and editing, restricting, banning, deleting the command message, the announcement text, Markdown escaping and `main`.
- File loading, saving and JSON (`main.py:64-87`) are I/O. The file's text is a parameter of the blacklist load; splitting a file into lines, and persisting the counters and the constitution, are not modelled.
- `uuid.uuid4()` and `datetime.now()` are nondeterministic. The token is a parameter with a freshness precondition, and the absolute end time of a mute is not modelled.
- Two approvals of one token that interleave at their awaits are not modelled: the handlers are modelled as atomic and sequential.
- `moderate_message` and `apply_punishment` have elided bodies (`main.py:260-266`). Nothing in `main.py` calls `analyze_message_with_ai` or `extract_offensive_word_with_ai`, so the interpreters `Filters.Verdict` and `Filters.OffensiveWord` model have no caller in that file.
- `set_constitution` (`main.py:164-171`) replaces the constitution wholesale and is not part of this model. The auto-replies are only loaded (`main.py:85`) and never used.
- `RuleLearning.RuleLearner.ManualAdminAction`: the whitelist lookup and the "is a reply" test are reduced to one `authorized` flag.
- `Text.Lower`: lower-cases ASCII letters only. Python's `str.lower` also maps other scripts, and can lengthen a string.
- `Text.IsDigit`: covers the ASCII, Arabic-Indic and Extended Arabic-Indic digits. Python's `\d` also matches the other Unicode decimal digits.
- `Durations.ParseDuration`: an unbounded amount is accepted. Python's `timedelta` raises `OverflowError` above 999999999 days, and that error is not modelled.
- `RuleLearning.RuleLearner.Approve`: the call that edits the owner's message is assumed to succeed. In the source it runs after the rule is appended and saved but before the token is dropped (`main.py:244-249`). If it raises, for example on a network error or on a backquote or backslash in the rule inside the MarkdownV2 code span, the token stays pending, and a second approval appends the rule again.
- `RuleLearning.RuleLearner.Reject`: the call that edits the owner's message is assumed to succeed. In the source it runs before the token is dropped (`main.py:256-258`). If it raises, for example on a network error or on a backquote or backslash in the rule inside the MarkdownV2 code span, the proposal stays pending and can still be approved.
- `RuleLearning.RuleLearner.RecordViolation`: saving the counters (`main.py:194`) is assumed to succeed. In the source a failed save raises after the count has gone up in memory, and the handler stops before any draft is asked for.
- `RuleLearning.RuleLearner.Approve`: saving the constitution (`main.py:245`) is assumed to succeed. In the source a failed save raises after the rule is appended in memory, and the token stays pending.
- `RuleLearning.RuleLearner.ManualAdminAction`: the Telegram calls are assumed to succeed. In the source, a raise while sending the proposal or deleting the command (`main.py:206-215`) ends the handler after the reason is counted and the proposal staged, before any punishment. A raise while restricting the member ends it before the announcement.
- `Admin.Punish`: the mute's end time `datetime.now() + duration` (`main.py:222`) raises `OverflowError` when it falls past the year 9999, about 2.9 million days from now. The model accepts any duration and does not model that error.

## Findings

| source | as written | input that shows it | evidently intended | confidence | as-written member | corrected member |
|---|---|---|---|---|---|---|
| main.py:71-72 | `load_from_file("blacklist.txt")` returns the file's text, because the name ends in ".txt". The check then tests each character of that text against the lower-cased message. | blacklist.txt holding "spam\n" and the message "a cat": flagged through the letter "a". Through the file's own line break, every two-line message is flagged too. | The set of non-empty stripped lines (`main.py:74`), so that a message is flagged only when it holds a whole listed entry. | not executed | Filters.LoadBlacklist, Filters.SpamBlacklistFlagsCat | Filters.LoadLineSet, Filters.LineSetFlagsWholeLines |

=== FILE: admin.dfy ===
/** The "/hi" moderation command of a whitelisted admin: a reply whose text is
      /hi
      <action>
      <reason>
      [<duration>]
    (any further lines are ignored) and the punishment it asks for. */
module Admin {
  import opened Wrappers
  import opened Text
  import opened Durations

  const COMMAND := "/hi"
  /** "mute" */
  const MUTE_ACTION := "كتم"
  /** "ban" */
  const BAN_ACTION := "طرد"

  datatype Command = Command(action: string, reason: string, durationLine: Option<string>)

  /** The fields of a command: each one line, with no surrounding whitespace. */
  predicate IsField(s: string) {
    IsStripped(s) && NoLineBreak(s)
  }

  predicate WellFormed(cmd: Command) {
    && IsField(cmd.action) && IsField(cmd.reason)
    && (cmd.durationLine.Some? ==> IsField(cmd.durationLine.value))
  }

  /** Reading the command: at least three lines, the first of which is "/hi"
      up to case and surrounding whitespace; the next two give the action and
      the reason, and a fourth line, if any, the duration. */
  function ParseCommand(text: string): (cmd: Option<Command>)
    ensures cmd.Some? <==> |SplitLines(text)| >= 3 && Lower(Strip(SplitLines(text)[0])) == COMMAND
    ensures cmd.Some? ==> WellFormed(cmd.value)
    ensures cmd.Some? ==> && cmd.value.action == Strip(SplitLines(text)[1])
                          && cmd.value.reason == Strip(SplitLines(text)[2])
                          && (cmd.value.durationLine.Some? <==> |SplitLines(text)| > 3)
                          && (|SplitLines(text)| > 3 ==>
                                cmd.value.durationLine.value == Strip(SplitLines(text)[3]))
  {
    var lines := SplitLines(text);
    if |lines| < 3 || Lower(Strip(lines[0])) != COMMAND then None
    else
      StripKeepsNoLineBreak(lines[1]);
      StripKeepsNoLineBreak(lines[2]);
      var durationLine := if |lines| > 3 then
                            StripKeepsNoLineBreak(lines[3]);
                            Some(Strip(lines[3]))
                          else None;
      Some(Command(Strip(lines[1]), Strip(lines[2]), durationLine))
  }

  /** The lines of a command written under a given first line. */
  function Written(header: string, cmd: Command): seq<string> {
    [header, cmd.action, cmd.reason]
    + (if cmd.durationLine.Some? then [cmd.durationLine.value] else [])
  }

  /** The text of a command, one field per line. */
  function Render(cmd: Command): string {
    Terminated(Written(COMMAND, cmd))
  }

  /** Reading a written command gives it back. */
  lemma ParseRender(cmd: Command)
    requires WellFormed(cmd)
    ensures ParseCommand(Render(cmd)) == Some(cmd)
  {
    StripFixpoint(COMMAND);
    LowerFixpoint(COMMAND);
    ParseWritten(COMMAND, cmd);
  }

  /** Any single first line that reads "/hi" once stripped and lower-cased
      introduces the command written after it. */
  lemma ParseWritten(header: string, cmd: Command)
    requires WellFormed(cmd)
    requires NoLineBreak(header) && Lower(Strip(header)) == COMMAND
    ensures ParseCommand(Terminated(Written(header, cmd))) == Some(cmd)
  {
    WrittenSplits(header, cmd);
    ParseFields(Terminated(Written(header, cmd)), header, cmd);
  }

  /** The written lines are the lines of the written text. */
  lemma WrittenSplits(header: string, cmd: Command)
    requires WellFormed(cmd) && NoLineBreak(header)
    ensures SplitLines(Terminated(Written(header, cmd))) == Written(header, cmd)
  {
    var lines := Written(header, cmd);
    assert forall i | 0 <= i < |lines| :: NoLineBreak(lines[i]);
    SplitTerminated(lines);
  }

  /** Reading a text whose lines are a written command. */
  lemma ParseFields(text: string, header: string, cmd: Command)
    requires WellFormed(cmd) && Lower(Strip(header)) == COMMAND
    requires SplitLines(text) == Written(header, cmd)
    ensures ParseCommand(text) == Some(cmd)
  {
    StripFixpoint(cmd.action);
    StripFixpoint(cmd.reason);
    if cmd.durationLine.Some? {
      StripFixpoint(cmd.durationLine.value);
    }
  }

  /** The first line "  /HI " is accepted: case and surrounding whitespace
      do not matter. */
  lemma ShoutedCommandAccepted(cmd: Command)
    requires WellFormed(cmd)
    ensures ParseCommand(Terminated(Written("  /HI ", cmd))) == Some(cmd)
  {
    ShoutedHeader();
    ParseWritten("  /HI ", cmd);
  }

  lemma ShoutedHeader()
    ensures NoLineBreak("  /HI ") && Lower(Strip("  /HI ")) == COMMAND
  {
    var header := "  /HI ";
    assert TextStart(header) == 2;
    assert Strip(header) == "/HI";
  }

  datatype Punishment = Mute(seconds: nat, shown: Shown) | Ban

  /** The punishment an action word asks for: a mute for the requested
      duration, announced in its largest unit; a ban; or nothing, for an
      unknown action or a mute whose duration does not parse or is zero. */
  function Punish(action: string, durationLine: Option<string>): (p: Option<Punishment>)
    ensures p == Some(Ban) <==> action == BAN_ACTION
    ensures p.Some? && p.value.Mute? ==> action == MUTE_ACTION && p.value.seconds > 0
                                         && p.value.shown == Display(p.value.seconds)
    ensures action == MUTE_ACTION && p.None? ==> durationLine.Some? && durationLine.value != ""
    ensures action == MUTE_ACTION ==> (p.None? <==> MuteSeconds(durationLine).None?)
    ensures action == MUTE_ACTION && p.Some? ==>
              p.value.Mute? && p.value.seconds == MuteSeconds(durationLine).value
    ensures action != MUTE_ACTION && action != BAN_ACTION ==> p.None?
  {
    if action == MUTE_ACTION then
      match MuteSeconds(durationLine)
      case None => None
      case Some(seconds) => Some(Mute(seconds, Display(seconds)))
    else if action == BAN_ACTION then Some(Ban)
    else None
  }

  /** A mute command without a duration line mutes for ten minutes, shown
      in minutes. */
  lemma DefaultMute()
    ensures Punish(MUTE_ACTION, None) == Some(Mute(DEFAULT_MUTE, MinutesShown(10)))
  {
  }

  /** A mute for a written non-zero amount and unit lasts that amount in
      that unit. */
  lemma MuteForWrittenDuration(amount: nat, unit: char)
    requires amount > 0 && IsUnit(LowerChar(unit))
    ensures var seconds := amount * UnitSeconds(LowerChar(unit));
            Punish(MUTE_ACTION, Some(Decimal(amount) + [unit])) == Some(Mute(seconds, Display(seconds)))
  {
    ParseDurationRoundTrip(amount, unit);
  }
}

=== FILE: constitution.dfy ===
/** The constitution is free text whose numbered rule lines ("<n>. <text>")
    decide the number a newly drafted rule is asked to carry. */
module Constitution {
  import opened Text

  /** Length of the leading run of digits. */
  function LeadingDigits(s: string): (n: nat)
    ensures n <= |s| && AllDigits(s[..n])
    ensures n < |s| ==> !IsDigit(s[n])
  {
    if |s| == 0 || !IsDigit(s[0]) then 0
    else
      var n := 1 + LeadingDigits(s[1..]);
      assert s[..n] == [s[0]] + s[1..][..n - 1];
      n
  }

  /** The test `re.match(r'^\d+\.', line)`: the line opens with its run of
      digits, and a full stop follows that run. */
  predicate IsNumberedRule(line: string)
    ensures IsNumberedRule(line) ==> 2 <= |line| && IsDigit(line[0]) && '.' in line
  {
    var n := LeadingDigits(line);
    0 < n < |line| && line[n] == '.'
  }

  /** The greedy test above agrees with the pattern's meaning: some non-empty
      run of digits at the start is followed by a full stop. */
  lemma NumberedRuleMeaning(line: string)
    ensures IsNumberedRule(line) <==>
            exists k :: 0 < k < |line| && AllDigits(line[..k]) && line[k] == '.'
  {
    var n := LeadingDigits(line);
    if IsNumberedRule(line) {
      assert 0 < n < |line| && AllDigits(line[..n]) && line[n] == '.';
    }
    if exists k :: 0 < k < |line| && AllDigits(line[..k]) && line[k] == '.' {
      var k :| 0 < k < |line| && AllDigits(line[..k]) && line[k] == '.';
      assert n == k;
    }
  }

  /** The number of lines that, stripped, are numbered rule lines. */
  function CountNumbered(lines: seq<string>): (count: nat)
    ensures count <= |lines|
  {
    if |lines| == 0 then 0
    else (if IsNumberedRule(Strip(lines[0])) then 1 else 0) + CountNumbered(lines[1..])
  }

  lemma {:induction false} CountNumberedAppend(a: seq<string>, b: seq<string>)
    ensures CountNumbered(a + b) == CountNumbered(a) + CountNumbered(b)
  {
    if a == [] {
      assert a + b == b;
    } else {
      assert (a + b)[0] == a[0];
      assert (a + b)[1..] == a[1..] + b;
      CountNumberedAppend(a[1..], b);
    }
  }

  /** The numbered rule lines of a constitution. */
  function RuleCount(constitution: string): (rules: nat)
    ensures rules <= |SplitLines(constitution)|
  {
    CountNumbered(SplitLines(constitution))
  }

  /** The number a newly drafted rule is asked to carry. */
  function NextRuleNumber(constitution: string): (n: nat)
    ensures 1 <= n <= |SplitLines(constitution)| + 1
  {
    RuleCount(constitution) + 1
  }

  /** Appending "\n" + text to a constitution adds exactly the numbered rule
      lines of the text: the new line break never merges two existing lines
      and never splits one. */
  lemma {:induction false} RuleCountAfterAppend(c: string, r: string)
    ensures RuleCount(c + "\n" + r) == RuleCount(c) + RuleCount(r)
    decreases |c|
  {
    var i := LineEnd(c);
    if i == |c| {
      CountAfterLastLine(c, r);
    } else if c[i] == '\r' && i + 1 == |c| {
      CountAfterTrailingCarriageReturn(c, r);
    } else {
      var w := BreakWidth(c, i);
      var rest := c[i + w..];
      RuleCountAfterAppend(rest, r);
      CountAfterInnerBreak(c, r, i, w, rest);
    }
  }

  lemma CountAfterLastLine(c: string, r: string)
    requires LineEnd(c) == |c|
    ensures RuleCount(c + "\n" + r) == RuleCount(c) + RuleCount(r)
  {
    SplitAfterLastLine(c, r);
    assert CountNumbered([c]) == RuleCount(c);
    CountNumberedAppend([c], SplitLines(r));
  }

  lemma CountAfterTrailingCarriageReturn(c: string, r: string)
    requires LineEnd(c) == |c| - 1 && c[|c| - 1] == '\r'
    ensures RuleCount(c + "\n" + r) == RuleCount(c) + RuleCount(r)
  {
    SplitAfterTrailingCarriageReturn(c, r);
    CountNumberedAppend([c[..|c| - 1]], SplitLines(r));
  }

  lemma CountAfterInnerBreak(c: string, r: string, i: nat, w: nat, rest: string)
    requires i == LineEnd(c) < |c| && w == BreakWidth(c, i)
    requires !(c[i] == '\r' && i + 1 == |c|)
    requires rest == c[i + w..]
    requires RuleCount(rest + "\n" + r) == RuleCount(rest) + RuleCount(r)
    ensures RuleCount(c + "\n" + r) == RuleCount(c) + RuleCount(r)
  {
    CountOfJoinedFirstLine(c, r, i, w, rest);
    CountOfFirstLine(c, i, w, rest);
  }

  /** The count of the appended text is its first line's plus the rest's. */
  lemma CountOfJoinedFirstLine(c: string, r: string, i: nat, w: nat, rest: string)
    requires i == LineEnd(c) < |c| && w == BreakWidth(c, i)
    requires !(c[i] == '\r' && i + 1 == |c|)
    requires rest == c[i + w..]
    ensures RuleCount(c + "\n" + r) == CountNumbered([c[..i]]) + RuleCount(rest + "\n" + r)
  {
    SplitAfterInnerBreak(c, r, i, w, rest);
    CountNumberedAppend([c[..i]], SplitLines(rest + "\n" + r));
  }

  /** The count of the text is its first line's plus the rest's. */
  lemma CountOfFirstLine(c: string, i: nat, w: nat, rest: string)
    requires i == LineEnd(c) < |c| && w == BreakWidth(c, i)
    requires rest == c[i + w..]
    ensures RuleCount(c) == CountNumbered([c[..i]]) + RuleCount(rest)
  {
    SplitLinesAt(c, i, w, rest);
    CountNumberedAppend([c[..i]], SplitLines(rest));
  }

  /** Text without a line break becomes the line the new break ends. */
  lemma SplitAfterLastLine(c: string, r: string)
    requires LineEnd(c) == |c|
    ensures SplitLines(c + "\n" + r) == [c] + SplitLines(r)
    ensures SplitLines(c) == if c == [] then [] else [c]
  {
    var s := c + "\n" + r;
    assert s[|c|] == '\n';
    assert forall k | 0 <= k < |c| :: s[k] == c[k];
    assert LineEnd(s) == |c|;
    assert s[..|c|] == c;
    assert s[|c| + 1..] == r;
  }

  /** A lone "\r" ending the text joins the new "\n" into one break. */
  lemma SplitAfterTrailingCarriageReturn(c: string, r: string)
    requires LineEnd(c) == |c| - 1 && c[|c| - 1] == '\r'
    ensures SplitLines(c + "\n" + r) == [c[..|c| - 1]] + SplitLines(r)
    ensures SplitLines(c) == [c[..|c| - 1]]
  {
    var s := c + "\n" + r;
    var i := |c| - 1;
    assert forall k | 0 <= k < |c| :: s[k] == c[k];
    assert LineEnd(s) == i;
    assert s[..i] == c[..i];
    assert s[i + 1] == '\n';
    assert s[i + 2..] == r;
    assert c[i + 1..] == [];
  }

  /** Any other first break of the text is also the first break after the
      append, and of the same width. */
  lemma SplitAfterInnerBreak(c: string, r: string, i: nat, w: nat, rest: string)
    requires i == LineEnd(c) < |c| && w == BreakWidth(c, i)
    requires !(c[i] == '\r' && i + 1 == |c|)
    requires rest == c[i + w..]
    ensures SplitLines(c + "\n" + r) == [c[..i]] + SplitLines(rest + "\n" + r)
  {
    var s := c + "\n" + r;
    assert i + w <= |c| by {
      assert w == 2 ==> i + 1 < |c|;
    }
    FirstBreakKept(c, r);
    assert BreakWidth(s, i) == w by {
      if i + 1 < |c| {
        assert s[i + 1] == c[i + 1];
      }
    }
    SplitLinesAt(s, i, w, s[i + w..]);
    assert s[..i] == c[..i];
    SuffixOfAppended(c, r, i + w);
  }

  lemma SuffixOfAppended(c: string, r: string, k: nat)
    requires k <= |c|
    ensures (c + "\n" + r)[k..] == c[k..] + "\n" + r
  {
    var a := (c + "\n" + r)[k..];
    var b := c[k..] + "\n" + r;
    assert |a| == |b|;
    forall j | 0 <= j < |a| ensures a[j] == b[j] {
      if j < |c| - k {
      } else if j == |c| - k {
      } else {
      }
    }
  }

  /** One step of splitting at the first line break, which starts at i and
      is w characters wide. */
  lemma SplitLinesAt(s: string, i: nat, w: nat, rest: string)
    requires i == LineEnd(s) < |s| && w == BreakWidth(s, i)
    requires rest == s[i + w..]
    ensures SplitLines(s) == [s[..i]] + SplitLines(rest)
  {
  }

  /** Appending after a line break does not move the first break. */
  lemma FirstBreakKept(c: string, r: string)
    requires LineEnd(c) < |c|
    ensures LineEnd(c + "\n" + r) == LineEnd(c)
  {
    var i := LineEnd(c);
    var s := c + "\n" + r;
    assert s[i] == c[i];
    forall k | 0 <= k < i ensures !IsLineBreak(s[k]) {
      assert s[k] == c[k];
    }
  }

  /** Committing a one-line numbered rule moves the next rule number on by
      exactly one. */
  lemma NextRuleNumberAfterCommit(c: string, rule: string)
    requires NoLineBreak(rule) && IsNumberedRule(Strip(rule))
    ensures NextRuleNumber(c + "\n" + rule) == NextRuleNumber(c) + 1
  {
    RuleCountAfterAppend(c, rule);
    assert LineEnd(rule) == |rule|;
    assert SplitLines(rule) == [rule];
  }
}

=== FILE: durations.dfy ===
/** Mute durations: parsing the "<amount><unit>" line of an admin command,
    the ten-minute default, and the unit the announcement shows. Durations
    are whole seconds, as the total of a Python timedelta. */
module Durations {
  import opened Wrappers
  import opened Text

  const MINUTE: nat := 60
  const HOUR: nat := 3600
  const DAY: nat := 86400
  /** A mute without a duration line lasts ten minutes. */
  const DEFAULT_MUTE: nat := 10 * MINUTE

  predicate IsUnit(c: char) {
    c == 'm' || c == 'h' || c == 'd'
  }

  /** The length of one unit: `timedelta(minutes=1)`, `hours=1`, `days=1`. */
  function UnitSeconds(c: char): (seconds: nat)
    requires IsUnit(c)
    ensures (seconds == MINUTE <==> c == 'm') && (seconds == HOUR <==> c == 'h')
            && (seconds == DAY <==> c == 'd')
  {
    if c == 'm' then MINUTE else if c == 'h' then HOUR else DAY
  }

  /** parse_duration: the whole lower-cased text must be one or more digits
      followed by one unit letter; the result is the amount in that unit. */
  function ParseDuration(text: string): (seconds: Option<nat>)
    ensures seconds.Some? ==> 2 <= |text| && AllDigits(text[..|text| - 1])
                              && IsUnit(LowerChar(text[|text| - 1]))
    ensures seconds.Some? ==> NoSpace(text)
    ensures seconds.Some? ==> seconds.value % MINUTE == 0
  {
    var l := Lower(text);
    if 2 <= |l| && AllDigits(l[..|l| - 1]) && IsUnit(l[|l| - 1]) then
      DurationShape(text, l);
      Some(Value(l[..|l| - 1]) * UnitSeconds(l[|l| - 1]))
    else
      None
  }

  /** Lower-casing changes no digit and no whitespace, so text whose lower
      case is digits and a unit letter is itself digits and a unit letter. */
  lemma DurationShape(text: string, l: string)
    requires l == Lower(text)
    requires 2 <= |l| && AllDigits(l[..|l| - 1]) && IsUnit(l[|l| - 1])
    ensures AllDigits(text[..|text| - 1]) && IsUnit(LowerChar(text[|text| - 1]))
    ensures NoSpace(text)
  {
    forall i | 0 <= i < |l| - 1
      ensures IsDigit(text[i])
    {
      assert IsDigit(l[..|l| - 1][i]);
    }
  }

  /** Every run of digits followed by a unit letter, in either case, parses
      to its value in that unit. */
  lemma ParseDurationAccepts(digits: string, unit: char)
    requires digits != [] && AllDigits(digits) && IsUnit(LowerChar(unit))
    ensures ParseDuration(digits + [unit]) == Some(Value(digits) * UnitSeconds(LowerChar(unit)))
  {
    var l := Lower(digits + [unit]);
    assert l[..|l| - 1] == digits;
  }

  /** Writing an amount and a unit and parsing it back gives the amount in
      seconds. */
  lemma ParseDurationRoundTrip(amount: nat, unit: char)
    requires IsUnit(LowerChar(unit))
    ensures ParseDuration(Decimal(amount) + [unit]) == Some(amount * UnitSeconds(LowerChar(unit)))
  {
    ParseDurationAccepts(Decimal(amount), unit);
    DecimalRoundTrip(amount);
  }

  /** The duration a mute command asks for: the default when the duration
      line is missing or empty, otherwise the parsed line; a line that does
      not parse, or parses to zero, aborts the mute. */
  function MuteSeconds(durationLine: Option<string>): (seconds: Option<nat>)
    ensures seconds.Some? ==> seconds.value > 0 && seconds.value % MINUTE == 0
    ensures durationLine.None? || durationLine == Some("") ==> seconds == Some(DEFAULT_MUTE)
    ensures seconds.None? <==> durationLine.Some? && durationLine.value != ""
                               && (ParseDuration(durationLine.value).None?
                                   || ParseDuration(durationLine.value) == Some(0))
  {
    var duration := if durationLine.None? || durationLine.value == "" then Some(DEFAULT_MUTE)
                    else ParseDuration(durationLine.value);
    if duration.None? || duration.value == 0 then None else duration
  }

  /** An amount of zero parses, but the zero duration aborts the mute. */
  lemma ZeroAmountAbortsMute(zeros: string, unit: char)
    requires zeros != [] && forall i | 0 <= i < |zeros| :: zeros[i] == '0'
    requires IsUnit(LowerChar(unit))
    ensures ParseDuration(zeros + [unit]) == Some(0)
    ensures MuteSeconds(Some(zeros + [unit])) == None
  {
    ZerosAreZero(zeros);
    ParseDurationAccepts(zeros, unit);
  }

  lemma {:induction false} ZerosAreZero(zeros: string)
    requires forall i | 0 <= i < |zeros| :: zeros[i] == '0'
    ensures AllDigits(zeros) && Value(zeros) == 0
  {
    if zeros != [] {
      ZerosAreZero(zeros[..|zeros| - 1]);
    }
  }

  /** The amount and unit an announcement shows. */
  datatype Shown = DaysShown(days: nat) | HoursShown(hours: nat) | MinutesShown(minutes: nat)
  {
    function UnitLength(): nat {
      match this
      case DaysShown(_) => DAY
      case HoursShown(_) => HOUR
      case MinutesShown(_) => MINUTE
    }

    function Amount(): nat {
      match this
      case DaysShown(n) => n
      case HoursShown(n) => n
      case MinutesShown(n) => n
    }

    function Seconds(): nat {
      Amount() * UnitLength()
    }
  }

  /** The announcement's duration: whole days when there is at least one day,
      else whole hours when there is at least one hour, else whole minutes.
      It is the duration rounded down to the largest unit it reaches. */
  function Display(seconds: nat): (shown: Shown)
    ensures shown.Seconds() <= seconds < shown.Seconds() + shown.UnitLength()
    ensures shown.DaysShown? <==> seconds >= DAY
    ensures shown.HoursShown? <==> HOUR <= seconds < DAY
  {
    var days := seconds / DAY;
    var rest := seconds % DAY;
    if days > 0 then DaysShown(days)
    else if rest >= HOUR then HoursShown(rest / HOUR)
    else MinutesShown(rest / MINUTE)
  }
}

=== FILE: filters.dfy ===
/** The blacklist check and the post-processing of the generative-text
    service's replies. A reply is `None` when the service is not configured
    or the call failed; every interpreter then falls back to "no action". */
module Filters {
  import opened Wrappers
  import opened Text

  /** The word a classification reply must contain to mean "violates". */
  const YES_WORD := "نعم"
  /** The word the service uses to say that it found no offensive term. */
  const NONE_WORD := "لايوجد"

  /** The blacklist check's meaning: some entry occurs in the lower-cased
      message. */
  predicate Flagged(blacklist: set<string>, message: string) {
    exists w | w in blacklist :: Contains(Lower(message), w)
  }

  /** Loading the blacklist as the program does. The file's name ends in
      ".txt", so the loader returns the file's whole text, and the check then
      iterates over that text's characters: the blacklist is the set of its
      one-character strings. A missing file gives the empty set. */
  function LoadBlacklist(file: Option<string>): (entries: set<string>)
    ensures file.None? ==> entries == {}
    ensures forall w | w in entries :: |w| == 1
    ensures file.Some? ==> forall c :: [c] in entries <==> c in file.value
  {
    if file.None? then {}
    else set c | c in file.value :: [c]
  }

  /** As loaded, the blacklist flags a message iff the lower-cased message
      shares a single character with the file's text. */
  lemma BlacklistAsWrittenFlags(text: string, message: string)
    ensures Flagged(LoadBlacklist(Some(text)), message)
            <==> exists k | 0 <= k < |message| :: LowerChar(message[k]) in text
  {
    var entries := LoadBlacklist(Some(text));
    var lowered := Lower(message);
    if Flagged(entries, message) {
      var w :| w in entries && Contains(lowered, w);
      ContainsSingle(lowered, w[0]);
      assert [w[0]] == w;
      var k :| 0 <= k < |lowered| && lowered[k] == w[0];
      assert LowerChar(message[k]) in text;
    }
    if exists k | 0 <= k < |message| :: LowerChar(message[k]) in text {
      var k :| 0 <= k < |message| && LowerChar(message[k]) in text;
      var w := [lowered[k]];
      assert w in entries;
      ContainsSingle(lowered, lowered[k]);
    }
  }

  /** `c in text` for a one-character string. */
  lemma ContainsSingle(text: string, c: char)
    ensures Contains(text, [c]) <==> exists k | 0 <= k < |text| :: text[k] == c
  {
    if Contains(text, [c]) {
      var i :| OccursAt(text, [c], i);
      assert text[i..i + 1][0] == text[i];
    }
    if exists k | 0 <= k < |text| :: text[k] == c {
      var k :| 0 <= k < |text| && text[k] == c;
      assert text[k..k + 1] == [c];
      assert OccursAt(text, [c], k);
    }
  }

  /** As loaded, a file holding a line feed flags every message that holds
      one. */
  lemma BlacklistAsWrittenFlagsMultiLine(text: string, message: string, k: nat)
    requires '\n' in text
    requires k < |message| && message[k] == '\n'
    ensures Flagged(LoadBlacklist(Some(text)), message)
  {
    BlacklistAsWrittenFlags(text, message);
  }

  /** A blacklist file holding the one word "spam" flags "a cat" as loaded,
      through its letter 'a', but not as the set of its lines. */
  lemma SpamBlacklistFlagsCat()
    ensures Flagged(LoadBlacklist(Some("spam\n")), "a cat")
    ensures !Flagged(LoadLineSet(["spam"]), "a cat")
  {
    var message := "a cat";
    BlacklistAsWrittenFlags("spam\n", message);
    assert LowerChar(message[0]) in "spam\n";
    SpamLineSet();
    CatLacksSpam();
  }

  lemma SpamLineSet()
    ensures forall w | w in LoadLineSet(["spam"]) :: w == "spam"
  {
    StripFixpoint("spam");
  }

  lemma CatLacksSpam()
    ensures !Contains(Lower("a cat"), "spam")
  {
    var text := "a cat";
    LowerFixpoint(text);
    forall i | 0 <= i <= |text| - 4
      ensures !OccursAt(text, "spam", i)
    {
      assert text[i..i + 4][0] == text[i] != 's';
    }
  }

  /** The blacklist the program evidently means to load: each line of the
      file stripped, blank lines dropped. Entries are kept as written; they
      are not lower-cased. */
  function LoadLineSet(lines: seq<string>): (entries: set<string>)
    ensures forall w | w in entries :: w != "" && IsStripped(w)
    ensures forall w :: w in entries <==> exists i | 0 <= i < |lines| :: Strip(lines[i]) == w && w != ""
  {
    set i | 0 <= i < |lines| && Strip(lines[i]) != "" :: Strip(lines[i])
  }

  /** Loaded as a set of lines, the blacklist flags a message only when a
      whole non-blank line of the file, stripped, occurs in the lower-cased
      message. */
  lemma LineSetFlagsWholeLines(lines: seq<string>, message: string)
    ensures Flagged(LoadLineSet(lines), message)
            <==> exists i | 0 <= i < |lines| :: Strip(lines[i]) != ""
                                                && Contains(Lower(message), Strip(lines[i]))
  {
    var entries := LoadLineSet(lines);
    if Flagged(entries, message) {
      var w :| w in entries && Contains(Lower(message), w);
      var i :| 0 <= i < |lines| && Strip(lines[i]) == w && w != "";
    }
  }

  /** The blacklist check: some entry occurs in the lower-cased message. */
  method ContainsBadWord(blacklist: set<string>, message: string) returns (found: bool)
    ensures found <==> Flagged(blacklist, message)
  {
    var lowered := Lower(message);
    var unseen := blacklist;
    while unseen != {}
      invariant unseen <= blacklist
      invariant forall w | w in blacklist - unseen :: !Contains(lowered, w)
      decreases unseen
    {
      var w :| w in unseen;
      if Contains(lowered, w) {
        return true;
      }
      unseen := unseen - {w};
    }
    return false;
  }

  /** Entries are not lower-cased but the message is, so an entry holding an
      upper-case ASCII letter never matches: whenever a blacklist flags a
      message, one of its entries without such a letter does. */
  lemma OnlyLowerEntriesMatch(blacklist: set<string>, message: string)
    ensures Flagged(blacklist, message) <==>
            exists w | w in blacklist :: Contains(Lower(message), w)
                                         && forall k | 0 <= k < |w| :: !IsUpper(w[k])
  {
    if Flagged(blacklist, message) {
      var w :| w in blacklist && Contains(Lower(message), w);
      if exists k :: 0 <= k < |w| && IsUpper(w[k]) {
        LoweredLacksUpper(message, w);
      }
    }
  }

  /** The violation verdict: the stripped, lower-cased reply contains the
      yes-word. Stripping and lower-casing cannot change the answer. */
  function Verdict(reply: Option<string>): (violates: bool)
    ensures violates <==> reply.Some? && Contains(reply.value, YES_WORD)
  {
    if reply.None? then false
    else
      var decision := Lower(Strip(reply.value));
      ContainsLowered(Strip(reply.value), YES_WORD);
      ContainsStripped(reply.value, YES_WORD);
      Contains(decision, YES_WORD)
  }

  /** The offensive-word extraction: the stripped, lower-cased reply, unless
      it holds the "none" marker or more than one whitespace-separated word. */
  function OffensiveWord(reply: Option<string>): (word: Option<string>)
    ensures word.Some? <==> reply.Some? && NoSpace(Lower(Strip(reply.value)))
                            && !Contains(Lower(Strip(reply.value)), NONE_WORD)
    ensures word.Some? ==> word.value == Lower(Strip(reply.value))
    ensures reply == Some("") ==> word == Some("")
  {
    if reply.None? then None
    else
      var w := Lower(Strip(reply.value));
      LowerKeepsStripped(Strip(reply.value));
      WordsOfStripped(w);
      if Contains(w, NONE_WORD) || |Words(w)| > 1 then None else Some(w)
  }

  /** Lower-casing maps no character to or from whitespace. */
  lemma LowerKeepsStripped(s: string)
    requires IsStripped(s)
    ensures IsStripped(Lower(s))
  {
  }

  /** The rule drafted by the service: its reply, stripped. */
  function DraftRule(reply: Option<string>): (draft: Option<string>)
    ensures draft.Some? <==> reply.Some?
    ensures draft.Some? ==> IsStripped(draft.value) && |draft.value| <= |reply.value|
    ensures draft.Some? ==> (draft.value == "" <==> IsBlank(reply.value))
    ensures draft.Some? ==> forall k | 0 <= k < |reply.value| && !IsSpace(reply.value[k]) ::
                              reply.value[k] in draft.value
  {
    if reply.None? then None
    else
      var text := reply.value;
      DraftKeepsText(text);
      Some(Strip(text))
  }

  /** Stripping a reply keeps every non-space character of it, so the draft
      is empty exactly when the reply is blank. */
  lemma DraftKeepsText(text: string)
    ensures Strip(text) == "" <==> IsBlank(text)
    ensures forall k | 0 <= k < |text| && !IsSpace(text[k]) :: text[k] in Strip(text)
  {
    var r := Strip(text);
    forall k | 0 <= k < |text| && !IsSpace(text[k])
      ensures text[k] in r
    {
      StripKeeps(text, k);
      assert r[k - TextStart(text)] == text[k];
    }
    if !IsBlank(text) {
      var k :| 0 <= k < |text| && !IsSpace(text[k]);
      assert text[k] in r;
    }
    if r != "" {
      assert r[0] == text[TextStart(text)];
      assert !IsSpace(r[0]);
    }
  }
}

=== FILE: learning.dfy ===
/** The rule-learning core. Every "/hi" command a whitelisted admin issues
    records its reason; when a reason has been recorded exactly REASON_TRIGGER_COUNT
    times, the generative-text service is asked to draft a rule, and a
    non-empty draft waits under a fresh token for the owner to approve it
    (appending it to the constitution) or reject it. */
module RuleLearning {
  import opened Wrappers
  import opened Text
  import opened Constitution
  import opened Filters
  import opened Admin

  /** The reason count at which a rule is drafted. */
  const REASON_TRIGGER_COUNT: int := 3
  /** What a rejection shows when the proposal is no longer pending. */
  const MISSING_PROPOSAL := "اقتراح غير متوفر"
  const APPROVE_VERB := "approve_rule"
  const REJECT_VERB := "reject_rule"

  /** A drafted rule waiting for the owner's decision. */
  datatype Proposal = Proposal(token: string, reason: string, rule: string)

  /** What an admin command did: nothing at all, or it recorded its reason,
      possibly asked for a draft (with the rule number requested), possibly
      staged a proposal, and chose a punishment (or none). */
  datatype AdminOutcome =
    | Ignored
    | Handled(asked: Option<nat>, staged: Option<Proposal>, punishment: Option<Punishment>)

  // ---------------------------------------------------------------------
  // The tokens carried by the approve / reject buttons
  // ---------------------------------------------------------------------

  /** Index of the first occurrence of c, or |s| when there is none. */
  function IndexOf(s: string, c: char): (i: nat)
    ensures i <= |s|
    ensures forall k | 0 <= k < i :: s[k] != c
    ensures i < |s| ==> s[i] == c
  {
    if |s| == 0 || s[0] == c then 0 else 1 + IndexOf(s[1..], c)
  }

  /** The data of an approve or reject button: "<verb>:<token>". */
  function CallbackData(verb: string, token: string): (data: string)
    ensures |data| == |verb| + 1 + |token| && data[|verb|] == ':'
    ensures data[..|verb|] == verb && data[|verb| + 1..] == token
  {
    verb + ":" + token
  }

  /** `data.split(":")[1]`: the text between the first colon and the next
      one (or the end); None where Python raises, that is, when there is no
      colon at all. */
  function CallbackToken(data: string): (token: Option<string>)
    ensures token.None? <==> ':' !in data
    ensures token.Some? ==> ':' !in token.value
  {
    var i := IndexOf(data, ':');
    if i == |data| then None
    else
      var rest := data[i + 1..];
      Some(rest[..IndexOf(rest, ':')])
  }

  /** A button's token is read back intact when neither the verb nor the
      token holds a colon. */
  lemma CallbackRoundTrip(verb: string, token: string)
    requires ':' !in verb && ':' !in token
    ensures CallbackToken(CallbackData(verb, token)) == Some(token)
  {
    var data := CallbackData(verb, token);
    assert data[|verb|] == ':';
    assert forall k | 0 <= k < |verb| :: data[k] == verb[k];
    assert IndexOf(data, ':') == |verb|;
    var rest := data[|verb| + 1..];
    assert rest == token;
    assert IndexOf(rest, ':') == |token|;
    assert rest[..|token|] == token;
  }

  /** The approve and reject buttons of one proposal both carry its token. */
  lemma ButtonsCarryToken(token: string)
    requires ':' !in token
    ensures CallbackToken(CallbackData(APPROVE_VERB, token)) == Some(token)
    ensures CallbackToken(CallbackData(REJECT_VERB, token)) == Some(token)
  {
    CallbackRoundTrip(APPROVE_VERB, token);
    CallbackRoundTrip(REJECT_VERB, token);
  }

  // ---------------------------------------------------------------------
  // The process state: reason counts, constitution, pending proposals
  // ---------------------------------------------------------------------

  class RuleLearner {
    /** How often each reason has been recorded (loaded from storage, so
        the values are whatever was stored). */
    var reasonCounts: map<string, int>
    /** The constitution text. */
    var constitution: string
    /** Pending proposals: token to drafted rule. */
    var pending: map<string, string>

    /** No pending rule is empty: only non-empty drafts are staged. This is
        what lets the approval's truthiness test stand for "not pending". */
    ghost predicate Valid()
      reads this
    {
      forall t | t in pending :: pending[t] != ""
    }

    constructor (counts: map<string, int>, text: string)
      ensures Valid()
      ensures reasonCounts == counts && constitution == text && pending == map[]
    {
      reasonCounts := counts;
      constitution := text;
      pending := map[];
    }

    /** `REASON_COUNTS.get(reason, 0)`. */
    function CountOf(reason: string): (count: int)
      reads this
      ensures reason !in reasonCounts ==> count == 0
      ensures reason in reasonCounts ==> count == reasonCounts[reason]
    {
      if reason in reasonCounts then reasonCounts[reason] else 0
    }

    /** Records one more occurrence of a reason. When the new count equals
        the trigger exactly, a draft is requested for the next rule number,
        and a non-empty draft is staged under the fresh token. `reply` is
        what the service answers if asked (None: unavailable or failed). */
    method RecordViolation(reason: string, reply: Option<string>, token: string)
      returns (asked: Option<nat>, staged: Option<Proposal>)
      requires Valid()
      requires token !in pending
      modifies this
      ensures Valid()
      ensures reasonCounts == old(reasonCounts)[reason := old(CountOf(reason)) + 1]
      ensures constitution == old(constitution)
      ensures asked.Some? <==> old(CountOf(reason)) + 1 == REASON_TRIGGER_COUNT
      ensures asked.Some? ==> asked.value == NextRuleNumber(constitution)
      ensures staged.Some? <==> asked.Some? && DraftRule(reply).Some? && DraftRule(reply).value != ""
      ensures staged.Some? ==> staged.value == Proposal(token, reason, DraftRule(reply).value)
                               && pending == old(pending)[token := staged.value.rule]
      ensures staged.None? ==> pending == old(pending)
    {
      var count := CountOf(reason) + 1;
      reasonCounts := reasonCounts[reason := count];
      asked, staged := None, None;
      if count == REASON_TRIGGER_COUNT {
        asked := Some(NextRuleNumber(constitution));
        var proposed := DraftRule(reply);
        if proposed.Some? && proposed.value != "" {
          pending := pending[token := proposed.value];
          staged := Some(Proposal(token, reason, proposed.value));
        }
      }
    }

    /** Approves a proposal: a pending rule is appended to the constitution
        on a new line and its token is dropped; an unknown token changes
        nothing ("expired or invalid"). */
    method Approve(token: string) returns (committed: Option<string>)
      requires Valid()
      modifies this
      ensures Valid()
      ensures committed.Some? <==> token in old(pending)
      ensures committed.Some? ==> committed.value == old(pending)[token]
                                  && constitution == old(constitution) + "\n" + committed.value
                                  && pending == old(pending) - {token}
      ensures committed.Some? ==> RuleCount(constitution)
                                  == old(RuleCount(constitution)) + RuleCount(committed.value)
      ensures committed.None? ==> constitution == old(constitution) && pending == old(pending)
      ensures reasonCounts == old(reasonCounts)
    {
      var proposed := if token in pending then Some(pending[token]) else None;
      if proposed.None? || proposed.value == "" {
        return None;
      }
      RuleCountAfterAppend(constitution, proposed.value);
      constitution := constitution + "\n" + proposed.value;
      if token in pending {
        pending := pending - {token};
      }
      committed := proposed;
    }

    /** Rejects a proposal: the token is dropped if pending; the constitution
        never changes. Returns the text the owner is shown. */
    method Reject(token: string) returns (shown: string)
      requires Valid()
      modifies this
      ensures Valid()
      ensures shown == if token in old(pending) then old(pending)[token] else MISSING_PROPOSAL
      ensures pending == old(pending) - {token}
      ensures token !in old(pending) ==> pending == old(pending)
      ensures constitution == old(constitution) && reasonCounts == old(reasonCounts)
    {
      shown := if token in pending then pending[token] else MISSING_PROPOSAL;
      if token in pending {
        pending := pending - {token};
      }
    }

    /** The "/hi" command handler. Nothing happens unless the sender is
        whitelisted and replying to a message (`authorized`) and the text is
        a command. Otherwise the reason is recorded first, whatever the
        action word and duration turn out to be, and then the punishment is
        chosen. */
    method ManualAdminAction(authorized: bool, text: string, reply: Option<string>, token: string)
      returns (outcome: AdminOutcome)
      requires Valid()
      requires token !in pending
      modifies this
      ensures Valid()
      ensures constitution == old(constitution)
      ensures outcome.Ignored? <==> !authorized || ParseCommand(text).None?
      ensures outcome.Ignored? ==> reasonCounts == old(reasonCounts) && pending == old(pending)
      ensures outcome.Handled? ==>
                var cmd := ParseCommand(text).value;
                && reasonCounts == old(reasonCounts)[cmd.reason := old(CountOf(cmd.reason)) + 1]
                && (outcome.asked.Some? <==> old(CountOf(cmd.reason)) + 1 == REASON_TRIGGER_COUNT)
                && (outcome.asked.Some? ==> outcome.asked.value == NextRuleNumber(constitution))
                && (outcome.staged.Some? <==> outcome.asked.Some? && DraftRule(reply).Some?
                                              && DraftRule(reply).value != "")
                && (outcome.staged.Some? ==>
                      outcome.staged.value == Proposal(token, cmd.reason, DraftRule(reply).value)
                      && pending == old(pending)[token := outcome.staged.value.rule])
                && (outcome.staged.None? ==> pending == old(pending))
                && outcome.punishment == Punish(cmd.action, cmd.durationLine)
    {
      if !authorized {
        return Ignored;
      }
      var parsed := ParseCommand(text);
      if parsed.None? {
        return Ignored;
      }
      var cmd := parsed.value;
      var asked, staged := RecordViolation(cmd.reason, reply, token);
      outcome := Handled(asked, staged, Punish(cmd.action, cmd.durationLine));
    }
  }

  // ---------------------------------------------------------------------
  // Sequences of calls
  // ---------------------------------------------------------------------

  /** Recording one reason again and again asks for a draft exactly once:
      on the call that brings its count to the trigger. */
  method RecordRepeatedly(learner: RuleLearner, reason: string, reply: Option<string>,
                          tokens: seq<string>)
    returns (attempts: nat)
    requires learner.Valid()
    requires forall i | 0 <= i < |tokens| :: tokens[i] !in learner.pending
    requires forall i, j | 0 <= i < j < |tokens| :: tokens[i] != tokens[j]
    modifies learner
    ensures learner.Valid()
    ensures learner.CountOf(reason) == old(learner.CountOf(reason)) + |tokens|
    ensures attempts == if old(learner.CountOf(reason)) < REASON_TRIGGER_COUNT
                           <= old(learner.CountOf(reason)) + |tokens| then 1 else 0
    ensures learner.constitution == old(learner.constitution)
  {
    var start := learner.CountOf(reason);
    attempts := 0;
    var i := 0;
    while i < |tokens|
      invariant 0 <= i <= |tokens|
      invariant learner.Valid()
      invariant learner.CountOf(reason) == start + i
      invariant forall j | i <= j < |tokens| :: tokens[j] !in learner.pending
      invariant attempts == if start < REASON_TRIGGER_COUNT <= start + i then 1 else 0
      invariant learner.constitution == old(learner.constitution)
    {
      var asked, staged := learner.RecordViolation(reason, reply, tokens[i]);
      if asked.Some? {
        attempts := attempts + 1;
      }
      i := i + 1;
    }
  }

  /** A token is committed at most once: approving it again finds nothing. */
  method ApproveTwice(learner: RuleLearner, token: string)
    returns (first: Option<string>, second: Option<string>)
    requires learner.Valid()
    modifies learner
    ensures second.None?
    ensures first.Some? <==> token in old(learner.pending)
    ensures learner.constitution == if first.Some? then old(learner.constitution) + "\n" + first.value
                                    else old(learner.constitution)
  {
    first := learner.Approve(token);
    second := learner.Approve(token);
  }

  /** Once approved, a proposal can no longer be rejected. */
  method ApproveThenReject(learner: RuleLearner, token: string)
    returns (committed: Option<string>, shown: string)
    requires learner.Valid()
    modifies learner
    ensures shown == MISSING_PROPOSAL
    ensures committed.Some? <==> token in old(learner.pending)
    ensures token !in learner.pending
  {
    committed := learner.Approve(token);
    shown := learner.Reject(token);
  }

  /** Against a constitution holding two numbered rules, the third recording
      of one reason asks for rule 3 and stages the drafted rule. */
  method ThirdRecordingDraftsRuleThree(constitution: string, reason: string, reply: string)
    returns (first: Option<nat>, second: Option<nat>, third: Option<nat>, staged: Option<Proposal>)
    requires RuleCount(constitution) == 2
    requires Strip(reply) != ""
    ensures first.None? && second.None?
    ensures third == Some(3)
    ensures staged == Some(Proposal("t3", reason, Strip(reply)))
  {
    var learner := new RuleLearner(map[], constitution);
    var s1, s2;
    first, s1 := learner.RecordViolation(reason, Some(reply), "t1");
    second, s2 := learner.RecordViolation(reason, Some(reply), "t2");
    third, staged := learner.RecordViolation(reason, Some(reply), "t3");
  }
}

=== FILE: text.dfy ===
/** The parts of Python's string semantics the bot relies on:
    str.isspace / str.strip, str.lower (on ASCII letters), str.splitlines,
    str.split() without arguments, the `in` substring test, and the decimal
    digits matched by the regular-expression class \d. */
module Text {

  // ---------------------------------------------------------------------
  // Character classes
  // ---------------------------------------------------------------------

  /** The code points for which Python's str.isspace holds. */
  predicate IsSpace(c: char) {
    || c == ' '
    || ('\t' <= c <= '\r')
    || ('\U{1C}' <= c <= '\U{1F}')
    || c == '\U{85}' || c == '\U{A0}' || c == '\U{1680}'
    || ('\U{2000}' <= c <= '\U{200A}')
    || c == '\U{2028}' || c == '\U{2029}' || c == '\U{202F}'
    || c == '\U{205F}' || c == '\U{3000}'
  }

  /** The code points at which Python's str.splitlines breaks a line. */
  predicate IsLineBreak(c: char) {
    || ('\n' <= c <= '\r')
    || ('\U{1C}' <= c <= '\U{1E}')
    || c == '\U{85}' || c == '\U{2028}' || c == '\U{2029}'
  }

  /** Decimal digits: ASCII, Arabic-Indic and Extended Arabic-Indic. */
  predicate IsDigit(c: char) {
    || ('0' <= c <= '9')
    || ('\U{660}' <= c <= '\U{669}')
    || ('\U{6F0}' <= c <= '\U{6F9}')
  }

  function DigitValue(c: char): (d: nat)
    requires IsDigit(c)
    ensures d <= 9
  {
    if c <= '9' then c as int - '0' as int
    else if c <= '\U{669}' then c as int - 0x660
    else c as int - 0x6F0
  }

  predicate IsUpper(c: char) {
    'A' <= c <= 'Z'
  }

  predicate IsAsciiLetter(c: char) {
    IsUpper(c) || ('a' <= c <= 'z')
  }

  predicate NoSpace(s: string) {
    forall i | 0 <= i < |s| :: !IsSpace(s[i])
  }

  predicate NoLineBreak(s: string) {
    forall i | 0 <= i < |s| :: !IsLineBreak(s[i])
  }

  predicate AllDigits(s: string) {
    forall i | 0 <= i < |s| :: IsDigit(s[i])
  }

  // ---------------------------------------------------------------------
  // Lower case (str.lower, ASCII letters only)
  // ---------------------------------------------------------------------

  function LowerChar(c: char): char {
    if IsUpper(c) then (c as int + 32) as char else c
  }

  /** `str.lower`, on ASCII letters. */
  function Lower(s: string): (r: string)
    ensures |r| == |s|
  {
    seq(|s|, i requires 0 <= i < |s| => LowerChar(s[i]))
  }

  /** Lower-casing leaves no upper-case ASCII letter and changes no other
      character. */
  lemma LowerMeaning(s: string)
    ensures forall k | 0 <= k < |s| :: !IsUpper(Lower(s)[k])
    ensures forall k | 0 <= k < |s| && !IsUpper(s[k]) :: Lower(s)[k] == s[k]
    ensures forall k | 0 <= k < |s| && IsUpper(s[k]) :: Lower(s)[k] as int == s[k] as int + 32
  {
  }

  /** Text without upper-case ASCII letters is its own lower case. */
  lemma LowerFixpoint(s: string)
    requires forall k | 0 <= k < |s| :: !IsUpper(s[k])
    ensures Lower(s) == s
  {
    var l := Lower(s);
    assert forall k | 0 <= k < |s| :: l[k] == s[k];
  }

  // ---------------------------------------------------------------------
  // Substrings (Python's `w in text`)
  // ---------------------------------------------------------------------

  predicate OccursAt(text: string, w: string, i: int) {
    0 <= i <= |text| - |w| && text[i..i + |w|] == w
  }

  /** `w in text`: w is a contiguous piece of text (the empty string always is). */
  function Contains(text: string, w: string): (r: bool)
    ensures r <==> exists i :: OccursAt(text, w, i)
    decreases |text|
  {
    if w <= text then
      assert OccursAt(text, w, 0);
      true
    else if |text| == 0 then
      false
    else
      var tail := text[1..];
      assert forall i :: OccursAt(text, w, i) <==> i > 0 && OccursAt(tail, w, i - 1) by {
        forall i ensures OccursAt(text, w, i) <==> i > 0 && OccursAt(tail, w, i - 1) {
          if 0 < i <= |text| - |w| {
            assert text[i..i + |w|] == tail[i - 1..i - 1 + |w|];
          }
        }
      }
      var r := Contains(tail, w);
      assert r ==> exists i :: OccursAt(text, w, i) by {
        if r {
          var j :| OccursAt(tail, w, j);
          assert OccursAt(text, w, j + 1);
        }
      }
      r
  }

  // ---------------------------------------------------------------------
  // Stripping surrounding whitespace (str.strip)
  // ---------------------------------------------------------------------

  /** Index of the first non-space character, or |s| when there is none. */
  function TextStart(s: string): (i: nat)
    ensures i <= |s|
    ensures forall k | 0 <= k < i :: IsSpace(s[k])
    ensures i < |s| ==> !IsSpace(s[i])
  {
    if |s| == 0 || !IsSpace(s[0]) then 0 else 1 + TextStart(s[1..])
  }

  /** One past the last non-space character, or 0 when there is none. */
  function TextEnd(s: string): (j: nat)
    ensures j <= |s|
    ensures forall k | j <= k < |s| :: IsSpace(s[k])
    ensures 0 < j ==> !IsSpace(s[j - 1])
  {
    if |s| == 0 || !IsSpace(s[|s| - 1]) then |s| else TextEnd(s[..|s| - 1])
  }

  /** r is the piece of s that starts at index a. */
  predicate IsSliceAt(r: string, s: string, a: nat) {
    a + |r| <= |s| && forall k {:trigger r[k]} | 0 <= k < |r| :: r[k] == s[a + k]
  }

  predicate IsStripped(s: string) {
    |s| == 0 || (!IsSpace(s[0]) && !IsSpace(s[|s| - 1]))
  }

  /** str.strip(): a slice of s without surrounding whitespace that starts at
      the first non-space character of s. */
  function Strip(s: string): (r: string)
    ensures IsStripped(r)
    ensures TextStart(s) + |r| <= |s| && r == s[TextStart(s)..TextStart(s) + |r|]
  {
    var i := TextStart(s);
    if i == |s| then [] else s[i..TextEnd(s)]
  }

  /** The stripped text, character by character. */
  lemma StripIsSlice(s: string)
    ensures IsSliceAt(Strip(s), s, TextStart(s))
  {
    var r, a := Strip(s), TextStart(s);
    forall k | 0 <= k < |r| ensures r[k] == s[a + k] {
      assert r[k] == s[a..a + |r|][k];
    }
  }

  /** Stripping only removes characters, so it adds no line break. */
  lemma StripKeepsNoLineBreak(s: string)
    requires NoLineBreak(s)
    ensures NoLineBreak(Strip(s))
  {
    var r := Strip(s);
    var a := TextStart(s);
    forall k | 0 <= k < |r| ensures !IsLineBreak(r[k]) {
      assert r[k] == s[a + k];
    }
  }

  lemma StripFixpoint(s: string)
    requires IsStripped(s)
    ensures Strip(s) == s
  {
    if s != [] {
      assert TextStart(s) == 0;
      assert !IsSpace(s[|s| - 1]);
    }
  }

  // ---------------------------------------------------------------------
  // Whitespace-separated words (str.split() without arguments)
  // ---------------------------------------------------------------------

  /** Length of the leading run of non-space characters. */
  function TokenLength(s: string): (n: nat)
    ensures n <= |s|
    ensures forall k | 0 <= k < n :: !IsSpace(s[k])
    ensures n < |s| ==> IsSpace(s[n])
  {
    if |s| == 0 || IsSpace(s[0]) then 0 else 1 + TokenLength(s[1..])
  }

  /** `str.split()`: the maximal runs of non-whitespace characters. */
  function Words(s: string): (words: seq<string>)
    ensures forall j | 0 <= j < |words| :: words[j] != "" && NoSpace(words[j])
    decreases |s|
  {
    var i := TextStart(s);
    if i == |s| then []
    else
      var t := s[i..];
      assert t[0] == s[i];
      var n := TokenLength(t);
      assert 0 < n;
      [t[..n]] + Words(t[n..])
  }

  /** Every character of s is whitespace. */
  predicate IsBlank(s: string) {
    forall i | 0 <= i < |s| :: IsSpace(s[i])
  }

  /** split() finds no word exactly in a blank string. */
  lemma WordsOfBlank(s: string)
    ensures Words(s) == [] <==> IsBlank(s)
  {
  }

  /** For a stripped string, split() yields at most one word exactly when the
      string holds no whitespace at all. */
  lemma {:induction false} WordsOfStripped(s: string)
    requires IsStripped(s)
    ensures |Words(s)| <= 1 <==> NoSpace(s)
  {
    if s != [] {
      assert TextStart(s) == 0;
      assert s[TextStart(s)..] == s;
      var n := TokenLength(s);
      if NoSpace(s) {
        assert n == |s|;
        assert s[n..] == [];
      } else {
        assert n < |s|;
        var rest := s[n..];
        assert rest[|rest| - 1] == s[|s| - 1];
        WordsOfBlank(rest);
      }
    }
  }

  // ---------------------------------------------------------------------
  // Lines (str.splitlines)
  // ---------------------------------------------------------------------

  /** Index of the first line break, or |s| when there is none. */
  function LineEnd(s: string): (i: nat)
    ensures i <= |s|
    ensures forall k | 0 <= k < i :: !IsLineBreak(s[k])
    ensures i < |s| ==> IsLineBreak(s[i])
  {
    if |s| == 0 || IsLineBreak(s[0]) then 0 else 1 + LineEnd(s[1..])
  }

  /** A line break is one character, except "\r\n", which is two. */
  function BreakWidth(s: string, i: nat): nat
    requires i < |s|
  {
    if s[i] == '\r' && i + 1 < |s| && s[i + 1] == '\n' then 2 else 1
  }

  /** str.splitlines(): the lines of s without their breaks; a final break
      does not open an empty last line. */
  function SplitLines(s: string): (lines: seq<string>)
    ensures forall i | 0 <= i < |lines| :: NoLineBreak(lines[i])
    ensures |lines| <= |s|
    decreases |s|
  {
    if |s| == 0 then []
    else
      var i := LineEnd(s);
      if i == |s| then [s] else [s[..i]] + SplitLines(s[i + BreakWidth(s, i)..])
  }

  /** Each line followed by "\n". */
  function Terminated(lines: seq<string>): string {
    if |lines| == 0 then "" else lines[0] + "\n" + Terminated(lines[1..])
  }

  /** Splitting newline-terminated lines gives the lines back. */
  lemma {:induction false} SplitTerminated(lines: seq<string>)
    requires forall i | 0 <= i < |lines| :: NoLineBreak(lines[i])
    ensures SplitLines(Terminated(lines)) == lines
  {
    if lines != [] {
      var l := lines[0];
      var rest := Terminated(lines[1..]);
      var s := Terminated(lines);
      assert s == l + "\n" + rest;
      assert s[|l|] == '\n';
      assert LineEnd(s) == |l|;
      assert s[..|l|] == l;
      assert s[|l| + 1..] == rest;
      SplitTerminated(lines[1..]);
    }
  }

  // ---------------------------------------------------------------------
  // How lower-casing and stripping affect substring tests
  // ---------------------------------------------------------------------

  /** A piece with no ASCII letter occurs in the lower-cased text exactly
      where it occurs in the text. */
  lemma ContainsLowered(s: string, w: string)
    requires forall k | 0 <= k < |w| :: !IsAsciiLetter(w[k])
    ensures Contains(Lower(s), w) <==> Contains(s, w)
  {
    if Contains(Lower(s), w) {
      var p :| OccursAt(Lower(s), w, p);
      OccursLowered(s, w, p);
    }
    if Contains(s, w) {
      var p :| OccursAt(s, w, p);
      OccursLowered(s, w, p);
    }
  }

  lemma OccursLowered(s: string, w: string, p: int)
    requires forall k | 0 <= k < |w| :: !IsAsciiLetter(w[k])
    ensures OccursAt(Lower(s), w, p) <==> OccursAt(s, w, p)
  {
    var l := Lower(s);
    if 0 <= p <= |s| - |w| {
      var a, b := l[p..p + |w|], s[p..p + |w|];
      assert forall k | 0 <= k < |w| :: a[k] == LowerChar(b[k]);
      if a == w {
        assert forall k | 0 <= k < |w| :: b[k] == w[k];
      }
      if b == w {
        assert forall k | 0 <= k < |w| :: a[k] == w[k];
      }
    }
  }

  /** Lower-cased text never contains an upper-case ASCII letter, so no piece
      holding one can occur in it. */
  lemma LoweredLacksUpper(s: string, w: string)
    requires exists k :: 0 <= k < |w| && IsUpper(w[k])
    ensures !Contains(Lower(s), w)
  {
    var l := Lower(s);
    var k :| 0 <= k < |w| && IsUpper(w[k]);
    forall p ensures !OccursAt(l, w, p) {
      if 0 <= p <= |l| - |w| {
        assert l[p..p + |w|][k] == LowerChar(s[p + k]);
      }
    }
  }

  /** Surrounding whitespace cannot take part in an occurrence of a
      non-empty piece without whitespace. */
  lemma ContainsStripped(s: string, w: string)
    requires |w| > 0 && NoSpace(w)
    ensures Contains(Strip(s), w) <==> Contains(s, w)
  {
    if Contains(Strip(s), w) {
      var p :| OccursAt(Strip(s), w, p);
      OccurrenceWidens(s, w, p);
    }
    if Contains(s, w) {
      var q :| OccursAt(s, w, q);
      OccurrenceNarrows(s, w, q);
    }
  }

  lemma OccurrenceWidens(s: string, w: string, p: int)
    requires OccursAt(Strip(s), w, p)
    ensures OccursAt(s, w, TextStart(s) + p)
  {
    StripIsSlice(s);
    WidenSlice(s, Strip(s), TextStart(s), w, p);
  }

  lemma OccurrenceNarrows(s: string, w: string, q: int)
    requires |w| > 0 && NoSpace(w)
    requires OccursAt(s, w, q)
    ensures OccursAt(Strip(s), w, q - TextStart(s))
  {
    OccurrenceEnds(s, w, q);
    assert !IsSpace(w[0]) && !IsSpace(w[|w| - 1]);
    StripBounds(s, q, q + |w| - 1);
    NarrowIntoStrip(s, w, q);
  }

  /** Text running from one non-space character to another lies within the
      stripped slice. */
  lemma StripBounds(s: string, q: int, e: int)
    requires 0 <= q <= e < |s| && !IsSpace(s[q]) && !IsSpace(s[e])
    ensures TextStart(s) <= q && e < TextStart(s) + |Strip(s)|
  {
    StripKeeps(s, q);
    StripKeeps(s, e);
  }

  lemma NarrowIntoStrip(s: string, w: string, q: int)
    requires TextStart(s) <= q && q + |w| <= TextStart(s) + |Strip(s)|
    requires OccursAt(s, w, q)
    ensures OccursAt(Strip(s), w, q - TextStart(s))
  {
    StripIsSlice(s);
    NarrowSlice(s, Strip(s), TextStart(s), w, q);
  }

  /** str.strip() removes only whitespace: every non-space character of s
      lies within the stripped slice. */
  lemma StripKeeps(s: string, k: int)
    requires 0 <= k < |s| && !IsSpace(s[k])
    ensures TextStart(s) <= k < TextStart(s) + |Strip(s)|
  {
    var i, j := TextStart(s), TextEnd(s);
    assert i <= k < j;
  }

  /** An occurrence inside a slice is an occurrence in the whole text. */
  lemma WidenSlice(s: string, r: string, a: nat, w: string, p: int)
    requires IsSliceAt(r, s, a)
    requires OccursAt(r, w, p)
    ensures OccursAt(s, w, a + p)
  {
    var piece := s[a + p..a + p + |w|];
    forall k | 0 <= k < |w| ensures piece[k] == w[k] {
      assert piece[k] == r[p + k] == r[p..p + |w|][k];
    }
  }

  /** An occurrence lying within a slice is an occurrence in the slice. */
  lemma NarrowSlice(s: string, r: string, a: nat, w: string, q: int)
    requires IsSliceAt(r, s, a)
    requires a <= q && q + |w| <= a + |r|
    requires OccursAt(s, w, q)
    ensures OccursAt(r, w, q - a)
  {
    var piece := r[q - a..q - a + |w|];
    forall k | 0 <= k < |w| ensures piece[k] == w[k] {
      assert piece[k] == s[q + k] == s[q..q + |w|][k];
    }
  }

  /** The first and last characters of an occurrence are those of the piece. */
  lemma OccurrenceEnds(s: string, w: string, q: int)
    requires |w| > 0 && OccursAt(s, w, q)
    ensures s[q] == w[0] && s[q + |w| - 1] == w[|w| - 1]
  {
    assert s[q..q + |w|][0] == s[q];
    assert s[q..q + |w|][|w| - 1] == s[q + |w| - 1];
  }

  // ---------------------------------------------------------------------
  // Decimal numerals (int() of a run of digits, and its inverse)
  // ---------------------------------------------------------------------

  /** The number a run of decimal digits denotes. */
  function Value(s: string): (v: nat)
    requires AllDigits(s)
    ensures v == 0 <==> forall k | 0 <= k < |s| :: DigitValue(s[k]) == 0
  {
    if |s| == 0 then 0 else Value(s[..|s| - 1]) * 10 + DigitValue(s[|s| - 1])
  }

  function DigitChar(d: nat): (c: char)
    requires d <= 9
    ensures IsDigit(c) && DigitValue(c) == d
  {
    ('0' as int + d) as char
  }

  /** The ASCII decimal numeral of n, without leading zeros. */
  function Decimal(n: nat): (s: string)
    ensures s != [] && AllDigits(s)
  {
    if n < 10 then [DigitChar(n)] else Decimal(n / 10) + [DigitChar(n % 10)]
  }

  lemma {:induction false} DecimalRoundTrip(n: nat)
    ensures Value(Decimal(n)) == n
  {
    if n >= 10 {
      var s := Decimal(n);
      assert s[..|s| - 1] == Decimal(n / 10);
      DecimalRoundTrip(n / 10);
    }
  }
}

=== FILE: wrappers.dfy ===
/** The optional value used for the bot's "None" returns. */
module Wrappers {

  datatype Option<+T> = None | Some(value: T)
}
